=== FILE: README.md ===
# stateful: a verified model of a generic finite-state-machine engine

This project models the core of `stateful`, a small Java library for event-driven finite state
machines. A caller names an initial state and declares transitions `(state, event) -> state` with a
fluent builder. The caller can also attach enter and exit listeners to states. `build()` then yields
a machine, and each `apply(event[, context])` call moves that machine along one transition.

The model is functional:

- **`Nodes`** (`nodes.dfy`): one state's `Node`. A node holds its state, an `event -> state` map
  in which the last write wins, and two append-only listener lists. `Fire` is the ordered sequence
  of listener calls that one list produces. `OnEnter` and `OnExit` are the `forEach` loops over
  those lists.
- **`Graph`** (`graph.dfy`): the builder's `State -> Node` registry and the operations that both
  builders share. These are lazy node creation (`GetOrCreate`), transition insertion (`Link`) and
  listener registration (`Listen`). The invariant `Consistent` says two things: there is one node
  per state value, and every transition target is a registered node.
- **`StateMachine`** (`machine.dfy`): the runtime. A machine is a registry, a current state and a
  strict flag. `Apply` returns either `Err(UnexpectedEventType(state, event))` or the next machine
  together with the trace of listener calls. The trace lists the old node's exit listeners and then
  the new node's enter listeners, and every call receives the same context. `Run` applies a
  sequence of events and stops at the first rejected one, as a caller would when `apply` throws.
- **`StateMachineBuilder`** (`builder.dfy`): the current builder, with its strict flag. `Declare`
  treats a chain of fluent calls as data, so that whole chains can be compared against independent
  reference definitions: last transition wins, listeners accumulate in call order, exactly the
  mentioned states are registered, and the last flag set wins.
- **`LegacyStateMachineBuilder`** (`legacy_builder.dfy`): the older `org.sevada` builder. It has no
  context and no flag. The model proves that it shapes the graph exactly as the current builder
  does.
- **`Scenarios`** (`scenarios.dfy`): the four tests of `StateMachineTest.java`, stated as lemmas,
  plus the lenient counterpart of the last test, which the repository does not test.

States, events and listeners are generic types. Listeners are opaque identifiers that get recorded
in a trace; the model never runs them as code. A Java `null` is `None`. The context is an
`Option<X>`, and `apply(event)` passes `None`.

Transition targets are stored as state values, not as node references. This is faithful because
the builder never holds two nodes for one state. A machine's `Valid` says that its registry is
`Consistent` and that its current state is registered. This is a representation invariant, not a
demand on callers: every machine `Build` returns satisfies it, and `Apply` and `Run` preserve it.

The repository holds two builders, `com.github.zevada.stateful.StateMachineBuilder` and
`org.sevada.stateful.StateMachineBuilder`, and both are modelled.

Two places where the sources disagree with each other:

- `com/github/zevada/stateful/Node.java` is the older two-type-parameter version. Its
  `onEnter()`/`onExit()` take no argument and run `Runnable`s. The same package's `StateMachine`
  calls `onEnter(context)`/`onExit(context)`, and its builder registers `StatefulFunction<Context>`
  listeners. The model follows the context-carrying `StateMachine` and builder: one context value
  is threaded to every listener call of a step.
- `StateMachineTest.java` is also written against the older API. It declares a two-parameter
  `StateMachine<State, EventType>` and `StateMachineBuilder<State, EventType>`, and it registers
  zero-argument lambdas such as `() -> onEntered[0] = true`. The builder shown has three type
  parameters and takes `StatefulFunction<Context>` listeners. `Scenarios` models these tests on the
  context-carrying API. It drives them with `ApplyNoContext`, which is `apply(event)`, and it uses
  the unit context type `NoCtx`.

## Model

| member | source | states |
|---|---|---|
| Nodes.NewNode | src/main/java/com/github/zevada/stateful/Node.java:14-19 | a new node stands for the given state, has no neighbour for any event, and has empty enter and exit lists |
| Nodes.GetNeighbor | src/main/java/com/github/zevada/stateful/Node.java:25-27 | the destination is present exactly when one was registered for the event, and it is the registered one; otherwise the result is null (`None`) |
| Nodes.AddNeighbor | src/main/java/com/github/zevada/stateful/Node.java:37-39 | afterwards the event leads to the new destination, overwriting any earlier one; every other event's neighbour, both listener lists and the node's state are unchanged |
| Nodes.AddListener | src/main/java/com/github/zevada/stateful/Node.java:41-47 | going through `addOnEnterListener` or `addOnExitListener`, the chosen list grows by one: the old entries keep their order and the new listener is last; the other list, the neighbours and the state are unchanged |
| Nodes.AddOnEnterListener | src/main/java/com/github/zevada/stateful/Node.java:41-43 | the listener is appended to the enter list; the exit list, neighbours and state are unchanged |
| Nodes.AddOnExitListener | src/main/java/com/github/zevada/stateful/Node.java:45-47 | the listener is appended to the exit list; the enter list, neighbours and state are unchanged |
| Nodes.Fire | src/main/java/com/github/zevada/stateful/Node.java:29-35 | running a listener list makes one call per entry, in list order, each with the same context |
| Nodes.RunAll | src/main/java/com/github/zevada/stateful/Node.java:29-35 | the `forEach` loop produces exactly the calls `Fire` specifies |
| Nodes.OnEnter | src/main/java/com/github/zevada/stateful/Node.java:29-31 | every enter listener runs exactly once, in registration order, and receives the context |
| Nodes.OnExit | src/main/java/com/github/zevada/stateful/Node.java:33-35 | every exit listener runs exactly once, in registration order, and receives the context |
| Graph.Lookup | src/main/java/com/github/zevada/stateful/StateMachine.java:32 | a transition from a state exists only if that state is registered and its node has a neighbour for the event, and then it is that neighbour |
| Graph.GetOrCreate | src/main/java/com/github/zevada/stateful/StateMachineBuilder.java:47-52 | the state becomes registered; an existing node is kept untouched and a missing one is created fresh; no other entry changes, and no transition or listener list changes; one-node-per-state and closure are preserved |
| Graph.Link | src/main/java/com/github/zevada/stateful/StateMachineBuilder.java:46-64 | both endpoints become registered; `(s, e)` leads to `t`; every other `(state, event)` lookup and every listener list is unchanged; nodes other than the source are untouched; the registry stays consistent |
| Graph.Listen | src/main/java/com/github/zevada/stateful/StateMachineBuilder.java:73-104 | the state becomes registered and its chosen list gains the listener at the end; every other list, every transition and every other node is unchanged; the registry stays consistent |
| StateMachine.GetState | src/main/java/com/github/zevada/stateful/StateMachine.java:50-52 | the reported state is the state of the current node, and that state is registered with its node standing for it |
| StateMachine.Apply | src/main/java/com/github/zevada/stateful/StateMachine.java:31-45 | fails exactly when there is no transition and the flag is strict, with `UnexpectedEventType(current state, event)`; with no transition in lenient mode it leaves the machine as it is and runs nothing; otherwise it moves to the destination, and the trace is the old node's exit listeners in order followed by the destination's enter listeners in order, all with the caller's context; the graph and the flag never change |
| StateMachine.ApplyNoContext | src/main/java/com/github/zevada/stateful/StateMachine.java:21-23 | fails under the same condition as `Apply`; every listener call receives null; for every context the outcome agrees with `Apply` on the machine, the error and the listeners called, so the context only reaches listeners |
| StateMachine.Run | src/main/java/com/github/zevada/stateful/StateMachine.java:31-45 | a sequence of applies visits one state per accepted event; if the first event is rejected, the run stops at once with the machine unchanged and that event's error; otherwise the first visited state is the state `Apply` reaches, and that step's trace is the start of the run's trace; a run stops early only at an event for which the strict machine, in the state it is left in, has no transition, and the error names that state and event; the last visited state is the current one |
| StateMachine.RunsCompose | src/main/java/com/github/zevada/stateful/StateMachine.java:31-45 | if a run gets through the events `a` without a rejection, running `a + b` ends, fails, visits and calls listeners exactly as running `a` and then running `b` from where `a` left off; so every accepted step's exit and enter calls appear in the run's trace, in order |
| StateMachine.EveryVisitIsOneStep | src/main/java/com/github/zevada/stateful/StateMachine.java:32-44 | every state a run visits is reached from the one before it by the corresponding event: either along that event's transition, or, in lenient mode only, by staying put when there is none |
| StateMachine.FollowsDeclaredPath | src/main/java/com/github/zevada/stateful/StateMachine.java:31-45 | if each event has a transition from the previous state to the next state of a path, then applying the events visits exactly that path and nothing is rejected |
| StateMachine.RejectedEventChangesNothing | src/main/java/com/github/zevada/stateful/StateMachine.java:32-36 | in strict mode an event without a transition stops the caller with the machine unchanged, no listener run, and the error carrying the current state and the event |
| StateMachine.IgnoredEventChangesNothing | src/main/java/com/github/zevada/stateful/StateMachine.java:34-39 | in lenient mode an event without a transition only records the unchanged state; the rest of the sequence proceeds exactly as if the event had not been sent |
| StateMachine.SelfLoopRunsExitThenEnter | src/main/java/com/github/zevada/stateful/StateMachine.java:42-44 | a self-loop keeps the machine as it is but runs the state's exit listeners and then its enter listeners; its trace is empty only when the state has no listeners |
| StateMachineBuilder.New | src/main/java/com/github/zevada/stateful/StateMachineBuilder.java:13-25 | only the initial state is registered; its node stands for it and has no transitions or listeners; the flag starts strict |
| StateMachineBuilder.AddTransition | src/main/java/com/github/zevada/stateful/StateMachineBuilder.java:46-64 | registers both endpoints; `(s, e)` now leads to `t`; all other transitions and all listener lists are unchanged; other nodes are untouched; root and flag are unchanged; validity is preserved |
| StateMachineBuilder.OnEnter | src/main/java/com/github/zevada/stateful/StateMachineBuilder.java:73-84 | registers the state and appends the listener to its enter list; every other listener list, all transitions, other nodes, root and flag are unchanged |
| StateMachineBuilder.OnExit | src/main/java/com/github/zevada/stateful/StateMachineBuilder.java:93-104 | registers the state and appends the listener to its exit list; every other listener list, all transitions, other nodes, root and flag are unchanged |
| StateMachineBuilder.StrictTransitions | src/main/java/com/github/zevada/stateful/StateMachineBuilder.java:110-114 | sets the flag to the argument and leaves the graph and root alone |
| StateMachineBuilder.Build | src/main/java/com/github/zevada/stateful/StateMachineBuilder.java:34-36 | the machine is valid, stands at the root state, carries the builder's flag at call time, and holds the builder's graph unchanged |
| StateMachineBuilder.Declare | src/main/java/com/github/zevada/stateful/StateMachineBuilder.java:46-114 | any chain of fluent calls keeps the builder valid and its root fixed, and the registry only grows |
| StateMachineBuilder.LastTransitionWins | src/main/java/com/github/zevada/stateful/StateMachineBuilder.java:61 | after any chain, `(s, e)` leads to the target of the last `addTransition(s, e, _)`, or to what it led to before if there was none |
| StateMachineBuilder.ListenersAccumulate | src/main/java/com/github/zevada/stateful/StateMachineBuilder.java:73-104 | after any chain, each listener list of a state is its old contents followed by every listener registered for it in that phase, in call order |
| StateMachineBuilder.RegistryHoldsMentionedStates | src/main/java/com/github/zevada/stateful/StateMachineBuilder.java:46-104 | after any chain, the registered states are exactly the old ones plus every state some call mentioned |
| StateMachineBuilder.LastStrictnessWins | src/main/java/com/github/zevada/stateful/StateMachineBuilder.java:110-114 | after any chain, the flag is the argument of the last `strictTransitions` call, or its old value if there was none |
| StateMachineBuilder.BuiltMachineStartsAtInitialState | src/main/java/com/github/zevada/stateful/StateMachineBuilder.java:21-36 | whatever was declared, the built machine is valid and stands in the initial state, and it is strict unless the last flag call said otherwise |
| LegacyStateMachineBuilder.New | src/main/java/org/sevada/stateful/StateMachineBuilder.java:19-23 | only the initial state is registered, with no transitions and no listeners |
| LegacyStateMachineBuilder.AddTransition | src/main/java/org/sevada/stateful/StateMachineBuilder.java:44-62 | registers missing endpoints without replacing existing nodes; `(s, e)` now leads to `t`; every other transition and every listener list is unchanged; validity is preserved |
| LegacyStateMachineBuilder.OnEnter | src/main/java/org/sevada/stateful/StateMachineBuilder.java:71-82 | registers the state and appends the listener to its enter list; its exit list, all transitions and other nodes are unchanged |
| LegacyStateMachineBuilder.OnExit | src/main/java/org/sevada/stateful/StateMachineBuilder.java:91-102 | registers the state and appends the listener to its exit list; its enter list, all transitions and other nodes are unchanged |
| LegacyStateMachineBuilder.Build | src/main/java/org/sevada/stateful/StateMachineBuilder.java:32-34 | the result stands at the root node of a consistent graph, which is the builder's graph unchanged |
| LegacyStateMachineBuilder.AgreesWithCurrentBuilder | src/main/java/org/sevada/stateful/StateMachineBuilder.java:19-102 | every legacy call builds the same graph as the corresponding call of the current builder |
| Scenarios.Lifecycle | src/test/java/com/github/zevada/stateful/StateMachineTest.java:18-24 | the test's four-transition builder is valid |
| Scenarios.LifecycleTransitions | src/test/java/com/github/zevada/stateful/StateMachineTest.java:18-24 | the four declared transitions can be read back from the built graph |
| Scenarios.LifecycleRunFrom | src/test/java/com/github/zevada/stateful/StateMachineTest.java:26-42 | any machine in INIT with those transitions visits RUNNING, PAUSED, RUNNING, COMPLETED under RUN, PAUSE, RUN, END |
| Scenarios.LifecycleRun | src/test/java/com/github/zevada/stateful/StateMachineTest.java:17-43 | the built machine starts in INIT and visits RUNNING, PAUSED, RUNNING, COMPLETED under RUN, PAUSE, RUN, END |
| Scenarios.EnterListenerRuns | src/test/java/com/github/zevada/stateful/StateMachineTest.java:46-58 | a listener on entering RUNNING is the one call made when RUN leaves INIT |
| Scenarios.ExitListenerRuns | src/test/java/com/github/zevada/stateful/StateMachineTest.java:61-73 | a listener on leaving INIT is the one call made on the same step |
| Scenarios.UnexpectedEventRejected | src/test/java/com/github/zevada/stateful/StateMachineTest.java:75-82 | a default (strict) machine with no transitions rejects RUN with `UnexpectedEventType(INIT, RUN)` |
| Scenarios.UnexpectedEventIgnoredWhenLenient | src/main/java/com/github/zevada/stateful/StateMachine.java:34-39 | the same machine built lenient ignores RUN, stays in INIT and runs nothing |

## Left out

- Sharing after `build()`: in the source, the builder and every machine it built share the same
  mutable `Node` objects, so builder calls made after `build()` change machines that already exist.
  Here `Build` takes a value snapshot of the registry. The shared-heap behaviour is not modelled.
- Listener bodies: `StatefulFunction` and `Runnable` listeners are opaque identifiers recorded in a
  trace. Their side effects are not modelled. Neither are exceptions they throw, which in the
  source propagate out of `apply` and can leave a step half done (after an exit listener throws,
  the machine has not moved yet; after an enter listener throws, it has).
- `UnexpectedEventTypeException` is not part of this model beyond the `(state, event)` pair it
  carries, which is the `Error` value.
- The `org.sevada` `StateMachine` and `Node` classes are not part of this model. The legacy
  `Build` yields the graph positioned at its root. It does not claim any runtime behaviour for
  that machine.
- `StateMachine.Run`: every event of a sequence gets the same context. Java callers may pass a
  different context to each `apply` call, and a sequence of such calls is modelled by chaining
  `Apply` directly.
- Concurrency: there is none in the engine, and callers must synchronise externally.
- `HashMap`/`LinkedList` internals and the `Enum` bounds on the type parameters: states and events
  are any types whose values need no allocation, and the only thing the engine does with them is
  compare them for equality.
- `Node.getState()` is the node's `state` field. That the state never changes is stated as part of
  every node operation's contract.

=== FILE: builder.dfy ===
/** The builder (com/github/zevada/stateful/StateMachineBuilder.java): a
    registry with one node per state, the root state given at construction,
    and the strict-transition flag. */
module StateMachineBuilder {
  import opened Results
  import opened Nodes
  import opened Graph
  import StateMachine

  datatype Builder<S, E(==), F> = Builder(nodes: Registry<S, E, F>, root: S, strict: bool)

  /** The registry is consistent and holds the root node. */
  ghost predicate Valid<S(!new), E(!new), F>(b: Builder<S, E, F>)
  {
    Consistent(b.nodes) && b.root in b.nodes
  }

  /** The constructor: only the root is registered, and transitions are strict. */
  function New<S(!new), E(!new), F>(initial: S): (b: Builder<S, E, F>)
    ensures Valid(b)
    ensures b.nodes.Keys == {initial} && b.root == initial
    ensures b.nodes[initial].state == initial
    ensures forall e :: Lookup(b.nodes, initial, e) == None
    ensures forall p :: ListenersOf(b.nodes, initial, p) == []
    ensures b.strict
  {
    Builder(map[initial := NewNode(initial)], initial, true)
  }

  /** `addTransition(s, e, t)`. */
  function AddTransition<S(!new), E(!new), F>(b: Builder<S, E, F>, s: S, e: E, t: S): (r: Builder<S, E, F>)
    ensures Valid(b) ==> Valid(r)
    ensures r.root == b.root && r.strict == b.strict
    ensures r.nodes.Keys == b.nodes.Keys + {s, t}
    ensures forall q :: q in b.nodes && q != s ==> r.nodes[q] == b.nodes[q]
    ensures Lookup(r.nodes, s, e) == Some(t)
    ensures forall q, x :: (q, x) != (s, e) ==> Lookup(r.nodes, q, x) == Lookup(b.nodes, q, x)
    ensures forall q, p :: ListenersOf(r.nodes, q, p) == ListenersOf(b.nodes, q, p)
  {
    b.(nodes := Link(b.nodes, s, e, t))
  }

  /** `onEnter(s, f)`. */
  function OnEnter<S(!new), E(!new), F>(b: Builder<S, E, F>, s: S, f: F): (r: Builder<S, E, F>)
    ensures Valid(b) ==> Valid(r)
    ensures r.root == b.root && r.strict == b.strict
    ensures r.nodes.Keys == b.nodes.Keys + {s}
    ensures ListenersOf(r.nodes, s, Enter) == ListenersOf(b.nodes, s, Enter) + [f]
    ensures forall q, p :: (q, p) != (s, Enter) ==> ListenersOf(r.nodes, q, p) == ListenersOf(b.nodes, q, p)
    ensures forall q :: q in b.nodes && q != s ==> r.nodes[q] == b.nodes[q]
    ensures forall q, x :: Lookup(r.nodes, q, x) == Lookup(b.nodes, q, x)
  {
    b.(nodes := Listen(b.nodes, s, Enter, f))
  }

  /** `onExit(s, f)`. */
  function OnExit<S(!new), E(!new), F>(b: Builder<S, E, F>, s: S, f: F): (r: Builder<S, E, F>)
    ensures Valid(b) ==> Valid(r)
    ensures r.root == b.root && r.strict == b.strict
    ensures r.nodes.Keys == b.nodes.Keys + {s}
    ensures ListenersOf(r.nodes, s, Exit) == ListenersOf(b.nodes, s, Exit) + [f]
    ensures forall q, p :: (q, p) != (s, Exit) ==> ListenersOf(r.nodes, q, p) == ListenersOf(b.nodes, q, p)
    ensures forall q :: q in b.nodes && q != s ==> r.nodes[q] == b.nodes[q]
    ensures forall q, x :: Lookup(r.nodes, q, x) == Lookup(b.nodes, q, x)
  {
    b.(nodes := Listen(b.nodes, s, Exit, f))
  }

  /** `strictTransitions(enabled)`: sets the flag and nothing else. */
  function StrictTransitions<S(!new), E(!new), F>(b: Builder<S, E, F>, enabled: bool): (r: Builder<S, E, F>)
    ensures Valid(b) ==> Valid(r)
    ensures r.strict == enabled
    ensures r.nodes == b.nodes && r.root == b.root
  {
    b.(strict := enabled)
  }

  /** `build()`: a machine at the root node with the builder's current flag.
      The machine holds a snapshot of the registry; the builder is unchanged. */
  function Build<S(!new), E(!new), F>(b: Builder<S, E, F>): (m: StateMachine.Machine<S, E, F>)
    requires Valid(b)
    ensures StateMachine.Valid(m)
    ensures StateMachine.GetState(m) == b.root
    ensures m.strict == b.strict
    ensures m.nodes == b.nodes
  {
    StateMachine.Machine(b.nodes, b.root, b.strict)
  }

  /** One fluent builder call, recorded as data. */
  datatype Decl<S, E, F> =
    | Transition(from: S, event: E, to: S)
    | EnterListener(state: S, listener: F)
    | ExitListener(state: S, listener: F)
    | Strictness(enabled: bool)

  function Perform<S(!new), E(!new), F>(b: Builder<S, E, F>, d: Decl<S, E, F>): Builder<S, E, F>
  {
    match d
    case Transition(s, e, t) => AddTransition(b, s, e, t)
    case EnterListener(s, f) => OnEnter(b, s, f)
    case ExitListener(s, f) => OnExit(b, s, f)
    case Strictness(enabled) => StrictTransitions(b, enabled)
  }

  /** A chain of builder calls, applied left to right. */
  function Declare<S(!new), E(!new), F>(b: Builder<S, E, F>, ds: seq<Decl<S, E, F>>): (r: Builder<S, E, F>)
    ensures Valid(b) ==> Valid(r)
    ensures r.root == b.root
    ensures b.nodes.Keys <= r.nodes.Keys
    decreases |ds|
  {
    if ds == [] then b else Perform(Declare(b, ds[..|ds| - 1]), ds[|ds| - 1])
  }

  /** The destination named by the last `addTransition` call for `(s, e)`. */
  ghost function DeclaredTarget<S, E, F>(ds: seq<Decl<S, E, F>>, s: S, e: E): Option<S>
    decreases |ds|
  {
    if ds == [] then None
    else
      match ds[|ds| - 1]
      case Transition(from, event, to) =>
        if from == s && event == e then Some(to) else DeclaredTarget(ds[..|ds| - 1], s, e)
      case _ => DeclaredTarget(ds[..|ds| - 1], s, e)
  }

  /** The listeners registered for `s` in one phase, in call order. */
  ghost function DeclaredListeners<S, E, F>(ds: seq<Decl<S, E, F>>, s: S, phase: Phase): seq<F>
    decreases |ds|
  {
    if ds == [] then [] else DeclaredListeners(ds[..|ds| - 1], s, phase) + Registers(ds[|ds| - 1], s, phase)
  }

  /** The listener one call registers for `s` in one phase, if any. */
  ghost function Registers<S, E, F>(d: Decl<S, E, F>, s: S, phase: Phase): seq<F>
  {
    match d
    case EnterListener(q, f) => if q == s && phase == Enter then [f] else []
    case ExitListener(q, f) => if q == s && phase == Exit then [f] else []
    case _ => []
  }

  /** Every state any call in `ds` mentions. */
  ghost function Mentioned<S, E, F>(ds: seq<Decl<S, E, F>>): set<S>
    decreases |ds|
  {
    if ds == [] then {}
    else
      Mentioned(ds[..|ds| - 1]) +
        match ds[|ds| - 1]
        case Transition(from, _, to) => {from, to}
        case EnterListener(q, _) => {q}
        case ExitListener(q, _) => {q}
        case Strictness(_) => {}
  }

  /** The flag set by the last `strictTransitions` call, else `current`. */
  ghost function DeclaredStrict<S, E, F>(ds: seq<Decl<S, E, F>>, current: bool): bool
    decreases |ds|
  {
    if ds == [] then current
    else
      match ds[|ds| - 1]
      case Strictness(enabled) => enabled
      case _ => DeclaredStrict(ds[..|ds| - 1], current)
  }

  /** Last write wins: after a chain of calls, `(s, e)` leads to the target of
      the last `addTransition(s, e, _)`, or to what it led to before. */
  lemma {:induction false} LastTransitionWins<S(!new), E(!new), F>(b: Builder<S, E, F>, ds: seq<Decl<S, E, F>>, s: S, e: E)
    ensures Lookup(Declare(b, ds).nodes, s, e) ==
      if DeclaredTarget(ds, s, e).Some? then DeclaredTarget(ds, s, e) else Lookup(b.nodes, s, e)
    decreases |ds|
  {
    if ds != [] {
      LastTransitionWins(b, ds[..|ds| - 1], s, e);
    }
  }

  /** Listeners accumulate: each phase list of `s` is what it was, followed by
      every listener registered for `s` in that phase, in call order. */
  lemma {:induction false} ListenersAccumulate<S(!new), E(!new), F>(b: Builder<S, E, F>, ds: seq<Decl<S, E, F>>, s: S, phase: Phase)
    ensures ListenersOf(Declare(b, ds).nodes, s, phase) == ListenersOf(b.nodes, s, phase) + DeclaredListeners(ds, s, phase)
    decreases |ds|
  {
    if ds != [] {
      var earlier := Declare(b, ds[..|ds| - 1]);
      ListenersAccumulate(b, ds[..|ds| - 1], s, phase);
      PerformListeners(earlier, ds[|ds| - 1], s, phase);
      assert ListenersOf(b.nodes, s, phase) + DeclaredListeners(ds, s, phase)
          == (ListenersOf(b.nodes, s, phase) + DeclaredListeners(ds[..|ds| - 1], s, phase)) + Registers(ds[|ds| - 1], s, phase);
    }
  }

  /** One call appends to a listener list exactly the listener it registers. */
  lemma PerformListeners<S(!new), E(!new), F>(b: Builder<S, E, F>, d: Decl<S, E, F>, s: S, phase: Phase)
    ensures ListenersOf(Perform(b, d).nodes, s, phase) == ListenersOf(b.nodes, s, phase) + Registers(d, s, phase)
  {
  }

  /** Exactly the states mentioned by some call get registered. */
  lemma {:induction false} RegistryHoldsMentionedStates<S(!new), E(!new), F>(b: Builder<S, E, F>, ds: seq<Decl<S, E, F>>)
    ensures Declare(b, ds).nodes.Keys == b.nodes.Keys + Mentioned(ds)
    decreases |ds|
  {
    if ds != [] {
      RegistryHoldsMentionedStates(b, ds[..|ds| - 1]);
    }
  }

  /** The flag is the one set by the last `strictTransitions` call. */
  lemma {:induction false} LastStrictnessWins<S(!new), E(!new), F>(b: Builder<S, E, F>, ds: seq<Decl<S, E, F>>)
    ensures Declare(b, ds).strict == DeclaredStrict(ds, b.strict)
    decreases |ds|
  {
    if ds != [] {
      LastStrictnessWins(b, ds[..|ds| - 1]);
    }
  }

  /** Whatever was declared, a freshly built machine stands in the initial
      state and is strict unless `strictTransitions(false)` was the last word. */
  lemma BuiltMachineStartsAtInitialState<S(!new), E(!new), F>(initial: S, ds: seq<Decl<S, E, F>>)
    ensures Valid(Declare(New(initial), ds))
    ensures StateMachine.GetState(Build(Declare(New(initial), ds))) == initial
    ensures Build(Declare(New(initial), ds)).strict == DeclaredStrict(ds, true)
  {
    LastStrictnessWins(New(initial), ds);
  }
}

=== FILE: graph.dfy ===
/** The builder's `State -> Node` registry and the graph operations both
    builders share: lazy node creation, transition insertion and listener
    registration (StateMachineBuilder.java, both packages). */
module Graph {
  import opened Results
  import opened Nodes

  type Registry<S, E(==), F> = map<S, Node<S, E, F>>

  /** Every registered node stands for the state it is filed under, so there
      is exactly one node per state value. */
  ghost predicate OneNodePerState<S(!new), E(!new), F>(g: Registry<S, E, F>)
  {
    forall s :: s in g ==> g[s].state == s
  }

  /** Every transition target of every registered node is registered. */
  ghost predicate Closed<S(!new), E(!new), F>(g: Registry<S, E, F>)
  {
    forall s, e :: s in g && e in g[s].neighbors ==> g[s].neighbors[e] in g
  }

  ghost predicate Consistent<S(!new), E(!new), F>(g: Registry<S, E, F>)
  {
    OneNodePerState(g) && Closed(g)
  }

  /** The destination of the `(s, e)` transition, if `s` has one. */
  function Lookup<S(!new), E(!new), F>(g: Registry<S, E, F>, s: S, e: E): (d: Option<S>)
    ensures d.Some? ==> s in g && e in g[s].neighbors
    ensures s in g ==> d == GetNeighbor(g[s], e)
  {
    if s in g then GetNeighbor(g[s], e) else None
  }

  /** The listeners of one phase registered for `s` (none if `s` has no node). */
  function ListenersOf<S(!new), E(!new), F>(g: Registry<S, E, F>, s: S, phase: Phase): (ls: seq<F>)
    ensures s in g ==> ls == Listeners(g[s], phase)
  {
    if s in g then Listeners(g[s], phase) else []
  }

  /** The `nodes.get(s)` / create-and-put-if-null idiom: registers a fresh
      node for `s` unless `s` already has one, which is then kept as is. */
  function GetOrCreate<S(!new), E(!new), F>(g: Registry<S, E, F>, s: S): (r: Registry<S, E, F>)
    ensures r.Keys == g.Keys + {s}
    ensures forall q :: q in g ==> r[q] == g[q]
    ensures s !in g ==> r[s] == NewNode(s)
    ensures forall q, x :: Lookup(r, q, x) == Lookup(g, q, x)
    ensures forall q, p :: ListenersOf(r, q, p) == ListenersOf(g, q, p)
    ensures Consistent(g) ==> Consistent(r)
  {
    if s in g then g else g[s := NewNode(s)]
  }

  /** `addTransition(s, e, t)`: registers `s` and `t` if absent, then makes
      `t` the destination of `(s, e)`, replacing any earlier one. */
  function Link<S(!new), E(!new), F>(g: Registry<S, E, F>, s: S, e: E, t: S): (r: Registry<S, E, F>)
    ensures r.Keys == g.Keys + {s, t}
    ensures Lookup(r, s, e) == Some(t)
    ensures forall q, x :: (q, x) != (s, e) ==> Lookup(r, q, x) == Lookup(g, q, x)
    ensures forall q, p :: ListenersOf(r, q, p) == ListenersOf(g, q, p)
    ensures forall q :: q in g && q != s ==> r[q] == g[q]
    ensures Consistent(g) ==> Consistent(r)
  {
    var g1 := GetOrCreate(g, s);
    var g2 := GetOrCreate(g1, t);
    RedirectKeepsTheRest(g2, s, e, t);
    g2[s := AddNeighbor(g2[s], e, t)]
  }

  /** Redirecting `(s, e)` of a registered node touches no other transition
      and no listener, and keeps the registry consistent when the new
      destination is registered. */
  lemma RedirectKeepsTheRest<S(!new), E(!new), F>(g: Registry<S, E, F>, s: S, e: E, t: S)
    requires s in g
    ensures forall q, x :: (q, x) != (s, e) ==> Lookup(g[s := AddNeighbor(g[s], e, t)], q, x) == Lookup(g, q, x)
    ensures forall q, p :: ListenersOf(g[s := AddNeighbor(g[s], e, t)], q, p) == ListenersOf(g, q, p)
    ensures Consistent(g) && t in g ==> Consistent(g[s := AddNeighbor(g[s], e, t)])
  {
  }

  /** `onEnter(s, f)` / `onExit(s, f)`: registers `s` if absent, then appends
      `f` to the chosen list of `s`. */
  function Listen<S(!new), E(!new), F>(g: Registry<S, E, F>, s: S, phase: Phase, f: F): (r: Registry<S, E, F>)
    ensures r.Keys == g.Keys + {s}
    ensures ListenersOf(r, s, phase) == ListenersOf(g, s, phase) + [f]
    ensures forall q, p :: (q, p) != (s, phase) ==> ListenersOf(r, q, p) == ListenersOf(g, q, p)
    ensures forall q, x :: Lookup(r, q, x) == Lookup(g, q, x)
    ensures forall q :: q in g && q != s ==> r[q] == g[q]
    ensures Consistent(g) ==> Consistent(r)
  {
    var g1 := GetOrCreate(g, s);
    g1[s := AddListener(g1[s], phase, f)]
  }
}

=== FILE: legacy_builder.dfy ===
/** The older builder (org/sevada/stateful/StateMachineBuilder.java): the same
    registry discipline with `Runnable` listeners, no context and no
    strict-transition flag. Its machine class is not part of this model, so
    `Build` yields the graph positioned at the root. */
module LegacyStateMachineBuilder {
  import opened Results
  import opened Nodes
  import opened Graph
  import StateMachineBuilder

  datatype LegacyBuilder<S, E(==), F> = LegacyBuilder(nodes: Registry<S, E, F>, root: S)

  /** What `build()` hands to the legacy machine: the graph and its root. */
  datatype Rooted<S, E(==), F> = Rooted(nodes: Registry<S, E, F>, current: S)

  ghost predicate Valid<S(!new), E(!new), F>(b: LegacyBuilder<S, E, F>)
  {
    Consistent(b.nodes) && b.root in b.nodes
  }

  function New<S(!new), E(!new), F>(initial: S): (b: LegacyBuilder<S, E, F>)
    ensures Valid(b)
    ensures b.nodes.Keys == {initial} && b.root == initial
    ensures forall e :: Lookup(b.nodes, initial, e) == None
    ensures forall p :: ListenersOf(b.nodes, initial, p) == []
  {
    LegacyBuilder(map[initial := NewNode(initial)], initial)
  }

  function AddTransition<S(!new), E(!new), F>(b: LegacyBuilder<S, E, F>, s: S, e: E, t: S): (r: LegacyBuilder<S, E, F>)
    ensures Valid(b) ==> Valid(r)
    ensures r.root == b.root
    ensures r.nodes.Keys == b.nodes.Keys + {s, t}
    ensures forall q :: q in b.nodes && q != s ==> r.nodes[q] == b.nodes[q]
    ensures Lookup(r.nodes, s, e) == Some(t)
    ensures forall q, x :: (q, x) != (s, e) ==> Lookup(r.nodes, q, x) == Lookup(b.nodes, q, x)
    ensures forall q, p :: ListenersOf(r.nodes, q, p) == ListenersOf(b.nodes, q, p)
  {
    b.(nodes := Link(b.nodes, s, e, t))
  }

  function OnEnter<S(!new), E(!new), F>(b: LegacyBuilder<S, E, F>, s: S, f: F): (r: LegacyBuilder<S, E, F>)
    ensures Valid(b) ==> Valid(r)
    ensures r.root == b.root
    ensures r.nodes.Keys == b.nodes.Keys + {s}
    ensures ListenersOf(r.nodes, s, Enter) == ListenersOf(b.nodes, s, Enter) + [f]
    ensures ListenersOf(r.nodes, s, Exit) == ListenersOf(b.nodes, s, Exit)
    ensures forall q :: q in b.nodes && q != s ==> r.nodes[q] == b.nodes[q]
    ensures forall q, x :: Lookup(r.nodes, q, x) == Lookup(b.nodes, q, x)
  {
    b.(nodes := Listen(b.nodes, s, Enter, f))
  }

  function OnExit<S(!new), E(!new), F>(b: LegacyBuilder<S, E, F>, s: S, f: F): (r: LegacyBuilder<S, E, F>)
    ensures Valid(b) ==> Valid(r)
    ensures r.root == b.root
    ensures r.nodes.Keys == b.nodes.Keys + {s}
    ensures ListenersOf(r.nodes, s, Exit) == ListenersOf(b.nodes, s, Exit) + [f]
    ensures ListenersOf(r.nodes, s, Enter) == ListenersOf(b.nodes, s, Enter)
    ensures forall q :: q in b.nodes && q != s ==> r.nodes[q] == b.nodes[q]
    ensures forall q, x :: Lookup(r.nodes, q, x) == Lookup(b.nodes, q, x)
  {
    b.(nodes := Listen(b.nodes, s, Exit, f))
  }

  /** `build()`: the root node of an untouched graph. */
  function Build<S(!new), E(!new), F>(b: LegacyBuilder<S, E, F>): (m: Rooted<S, E, F>)
    requires Valid(b)
    ensures Consistent(m.nodes) && m.current in m.nodes
    ensures m.nodes[m.current].state == b.root
    ensures m.nodes == b.nodes
  {
    Rooted(b.nodes, b.root)
  }

  /** The current builder with the given flag, holding the same graph. */
  function WithFlag<S, E, F>(b: LegacyBuilder<S, E, F>, strict: bool): StateMachineBuilder.Builder<S, E, F>
  {
    StateMachineBuilder.Builder(b.nodes, b.root, strict)
  }

  /** The legacy builder shapes the graph exactly as the current one does:
      each call commutes with forgetting the flag. */
  lemma AgreesWithCurrentBuilder<S(!new), E(!new), F>(b: LegacyBuilder<S, E, F>, strict: bool, s: S, e: E, t: S, f: F)
    ensures WithFlag(New<S, E, F>(s), true) == StateMachineBuilder.New<S, E, F>(s)
    ensures WithFlag(AddTransition(b, s, e, t), strict) == StateMachineBuilder.AddTransition(WithFlag(b, strict), s, e, t)
    ensures WithFlag(OnEnter(b, s, f), strict) == StateMachineBuilder.OnEnter(WithFlag(b, strict), s, f)
    ensures WithFlag(OnExit(b, s, f), strict) == StateMachineBuilder.OnExit(WithFlag(b, strict), s, f)
  {
  }
}

=== FILE: machine.dfy ===
/** The runtime machine (StateMachine.java): a snapshot of the registry, the
    current state and the strict-transition flag, driven by `apply`. */
module StateMachine {
  import opened Results
  import opened Nodes
  import opened Graph

  datatype Machine<S, E(==), F> = Machine(nodes: Registry<S, E, F>, current: S, strict: bool)

  /** The one failure `apply` reports: no transition for `event` in `state`. */
  datatype Error<S, E> = UnexpectedEventType(state: S, event: E)

  /** A completed `apply`: the machine afterwards and the listener calls made. */
  datatype Step<S, E(==), F, X> = Step(machine: Machine<S, E, F>, trace: seq<Call<F, X>>)

  ghost predicate Valid<S(!new), E(!new), F>(m: Machine<S, E, F>)
  {
    Consistent(m.nodes) && m.current in m.nodes
  }

  /** `t` is the exit listeners `exits` in order, then the enter listeners
      `enters` in order, every call receiving `ctx`. */
  ghost predicate ExitThenEnter<F, X>(t: seq<Call<F, X>>, exits: seq<F>, enters: seq<F>, ctx: Option<X>)
  {
    && |t| == |exits| + |enters|
    && (forall i :: 0 <= i < |exits| ==> t[i] == Call(Exit, exits[i], ctx))
    && (forall j :: 0 <= j < |enters| ==> t[|exits| + j] == Call(Enter, enters[j], ctx))
  }

  /** `getState()`: the state of the current node. */
  function GetState<S(!new), E(!new), F>(m: Machine<S, E, F>): (s: S)
    requires Valid(m)
    ensures s == m.nodes[m.current].state
    ensures s in m.nodes && m.nodes[s].state == s
  {
    m.current
  }

  /** `apply(eventType, context)`. */
  function Apply<S(!new), E(!new), F, X>(m: Machine<S, E, F>, e: E, ctx: Option<X>): (r: Result<Step<S, E, F, X>, Error<S, E>>)
    requires Valid(m)
    ensures r.Err? <==> Lookup(m.nodes, m.current, e) == None && m.strict
    ensures r.Err? ==> r.error == UnexpectedEventType(GetState(m), e)
    ensures r.Ok? ==> Valid(r.value.machine)
    ensures r.Ok? ==> r.value.machine.nodes == m.nodes && r.value.machine.strict == m.strict
    ensures Lookup(m.nodes, m.current, e) == None && !m.strict ==>
      r.Ok? && r.value.machine == m && r.value.trace == []
    ensures Lookup(m.nodes, m.current, e).Some? ==>
      var d := Lookup(m.nodes, m.current, e).value;
      && r.Ok?
      && GetState(r.value.machine) == d
      && ExitThenEnter(r.value.trace, m.nodes[m.current].exitListeners, m.nodes[d].enterListeners, ctx)
  {
    match Lookup(m.nodes, m.current, e)
    case None =>
      if m.strict then Err(UnexpectedEventType(m.current, e)) else Ok(Step(m, []))
    case Some(d) =>
      var exits := Fire(Exit, m.nodes[m.current].exitListeners, ctx);
      var enters := Fire(Enter, m.nodes[d].enterListeners, ctx);
      Ok(Step(m.(current := d), exits + enters))
  }

  /** `apply(eventType)`: the same step with a `null` context. */
  function ApplyNoContext<S(!new), E(!new), F, X(!new)>(m: Machine<S, E, F>, e: E): (r: Result<Step<S, E, F, X>, Error<S, E>>)
    requires Valid(m)
    ensures r.Err? <==> Lookup(m.nodes, m.current, e) == None && m.strict
    ensures r.Ok? ==> forall i :: 0 <= i < |r.value.trace| ==> r.value.trace[i].ctx == None
    ensures forall ctx: Option<X> :: SameOutcome(r, Apply(m, e, ctx))
  {
    Apply(m, e, None)
  }

  /** Two results agree on everything but the contexts the listeners saw. */
  ghost predicate SameOutcome<S, E, F, X>(a: Result<Step<S, E, F, X>, Error<S, E>>, b: Result<Step<S, E, F, X>, Error<S, E>>)
  {
    match (a, b)
    case (Err(x), Err(y)) => x == y
    case (Ok(x), Ok(y)) =>
      && x.machine == y.machine
      && |x.trace| == |y.trace|
      && (forall i :: 0 <= i < |x.trace| ==>
            x.trace[i].phase == y.trace[i].phase && x.trace[i].listener == y.trace[i].listener)
    case _ => false
  }

  /** Where a caller stands after applying a sequence of events: the machine,
      the state after each accepted event, every listener call made, and the
      exception that stopped the sequence, if any. */
  datatype Outcome<S, E(==), F, X> = Outcome(
    machine: Machine<S, E, F>,
    visited: seq<S>,
    trace: seq<Call<F, X>>,
    error: Option<Error<S, E>>)

  /** Applies `events` in order, each with context `ctx`, stopping at the
      first one the machine rejects, as a caller whose `apply` throws would. */
  function Run<S(!new), E(!new), F, X>(m: Machine<S, E, F>, events: seq<E>, ctx: Option<X>): (o: Outcome<S, E, F, X>)
    requires Valid(m)
    ensures Valid(o.machine) && o.machine.nodes == m.nodes && o.machine.strict == m.strict
    ensures o.error.None? ==> |o.visited| == |events|
    ensures o.error.Some? ==>
      && |o.visited| < |events|
      && o.error.value == UnexpectedEventType(GetState(o.machine), events[|o.visited|])
      && o.machine.strict
      && Lookup(o.machine.nodes, o.machine.current, events[|o.visited|]) == None
    ensures o.visited == [] ==> o.machine == m
    ensures o.visited != [] ==> GetState(o.machine) == o.visited[|o.visited| - 1]
    ensures events != [] && Apply(m, events[0], ctx).Err? ==>
      o == Outcome(m, [], [], Some(Apply(m, events[0], ctx).error))
    ensures events != [] && Apply(m, events[0], ctx).Ok? ==>
      && o.visited != []
      && o.visited[0] == GetState(Apply(m, events[0], ctx).value.machine)
      && Apply(m, events[0], ctx).value.trace <= o.trace
    decreases |events|
  {
    if events == [] then Outcome(m, [], [], None)
    else
      match Apply(m, events[0], ctx)
      case Err(err) => Outcome(m, [], [], Some(err))
      case Ok(step) =>
        var rest := Run(step.machine, events[1..], ctx);
        Outcome(rest.machine, [step.machine.current] + rest.visited, step.trace + rest.trace, rest.error)
  }

  /** The state a walk along `path` from `start` is in before its `i`-th step. */
  function From<S>(start: S, path: seq<S>, i: nat): S
    requires i <= |path|
  {
    if i == 0 then start else path[i - 1]
  }

  /** One accepted event leads from `s` to `d`: along a transition, or, in
      lenient mode, by ignoring an event that has none. */
  ghost predicate Moves<S(!new), E(!new), F>(m: Machine<S, E, F>, s: S, e: E, d: S)
  {
    || Lookup(m.nodes, s, e) == Some(d)
    || (!m.strict && Lookup(m.nodes, s, e) == None && d == s)
  }

  /** Conversely, every state a run visits is reached from the one before it
      by the corresponding event: no state is visited that the graph and the
      strict flag do not allow. */
  lemma {:induction false} EveryVisitIsOneStep<S(!new), E(!new), F, X>(m: Machine<S, E, F>, events: seq<E>, ctx: Option<X>)
    requires Valid(m)
    ensures forall i :: 0 <= i < |Run(m, events, ctx).visited| ==>
      Moves(m, From(m.current, Run(m, events, ctx).visited, i), events[i], Run(m, events, ctx).visited[i])
    decreases |events|
  {
    if events != [] && Apply(m, events[0], ctx).Ok? {
      var step := Apply(m, events[0], ctx).value;
      var rest := Run(step.machine, events[1..], ctx);
      RunUnfolds(m, events, ctx);
      EveryVisitIsOneStep(step.machine, events[1..], ctx);
      MovesAfterStep(m, step.machine, events, rest.visited);
    }
  }

  /** A walk that moves from `m`'s state to `m2`'s on the first event and then
      along `rest` on the others moves on every event. */
  lemma MovesAfterStep<S(!new), E(!new), F>(m: Machine<S, E, F>, m2: Machine<S, E, F>, events: seq<E>, rest: seq<S>)
    requires m2.nodes == m.nodes && m2.strict == m.strict
    requires events != [] && |rest| < |events|
    requires Moves(m, m.current, events[0], m2.current)
    requires forall i :: 0 <= i < |rest| ==> Moves(m2, From(m2.current, rest, i), events[1..][i], rest[i])
    ensures forall i :: 0 <= i < |[m2.current] + rest| ==>
      Moves(m, From(m.current, [m2.current] + rest, i), events[i], ([m2.current] + rest)[i])
  {
  }

  /** One accepted first step followed by the run of the remaining events. */
  lemma RunUnfolds<S(!new), E(!new), F, X>(m: Machine<S, E, F>, events: seq<E>, ctx: Option<X>)
    requires Valid(m) && events != [] && Apply(m, events[0], ctx).Ok?
    ensures var step := Apply(m, events[0], ctx).value;
      var rest := Run(step.machine, events[1..], ctx);
      Run(m, events, ctx) == Outcome(rest.machine, [step.machine.current] + rest.visited, step.trace + rest.trace, rest.error)
  {
  }

  /** Gluing outcomes: one accepted step, then the run of `rest`, then `o2`,
      is the step followed by the two runs glued together. */
  lemma GlueAfterStep<S, E, F, X>(c: S, calls: seq<Call<F, X>>, rest: Outcome<S, E, F, X>,
                                  o2: Outcome<S, E, F, X>, whole: Outcome<S, E, F, X>)
    requires whole == Outcome(o2.machine, rest.visited + o2.visited, rest.trace + o2.trace, o2.error)
    ensures Outcome(whole.machine, [c] + whole.visited, calls + whole.trace, whole.error)
         == Outcome(o2.machine, ([c] + rest.visited) + o2.visited, (calls + rest.trace) + o2.trace, o2.error)
  {
  }

  /** Concatenation keeps the head of a non-empty left part. */
  lemma SplitHead<T>(a: seq<T>, b: seq<T>)
    requires a != []
    ensures (a + b)[0] == a[0] && (a + b)[1..] == a[1..] + b
  {
  }

  /** Runs compose: a run that gets through `a` and then carries on with `b`
      ends, visits and calls exactly as the run of `a` followed by the run of
      `b`, so every accepted step contributes its listener calls, in order. */
  lemma {:induction false} RunsCompose<S(!new), E(!new), F, X>(m: Machine<S, E, F>, a: seq<E>, b: seq<E>, ctx: Option<X>)
    requires Valid(m) && Run(m, a, ctx).error == None
    ensures Run(m, a + b, ctx) == Outcome(
      Run(Run(m, a, ctx).machine, b, ctx).machine,
      Run(m, a, ctx).visited + Run(Run(m, a, ctx).machine, b, ctx).visited,
      Run(m, a, ctx).trace + Run(Run(m, a, ctx).machine, b, ctx).trace,
      Run(Run(m, a, ctx).machine, b, ctx).error)
    decreases |a|
  {
    if a == [] {
      assert a + b == b;
    } else {
      var ab := a + b;
      SplitHead(a, b);
      var step := Apply(m, a[0], ctx).value;
      var rest := Run(step.machine, a[1..], ctx);
      RunUnfolds(m, a, ctx);
      RunUnfolds(m, ab, ctx);
      RunsCompose(step.machine, a[1..], b, ctx);
      GlueAfterStep(step.machine.current, step.trace, rest, Run(rest.machine, b, ctx), Run(step.machine, ab[1..], ctx));
    }
  }

  /** Applying the events of a declared path of transitions visits exactly
      the declared states, in order, and nothing is rejected. */
  lemma {:induction false} FollowsDeclaredPath<S(!new), E(!new), F, X>(
    m: Machine<S, E, F>, events: seq<E>, path: seq<S>, ctx: Option<X>)
    requires Valid(m) && |path| == |events|
    requires forall i :: 0 <= i < |events| ==>
      Lookup(m.nodes, From(m.current, path, i), events[i]) == Some(path[i])
    ensures Run(m, events, ctx).error == None
    ensures Run(m, events, ctx).visited == path
    decreases |events|
  {
    if events != [] {
      assert Lookup(m.nodes, From(m.current, path, 0), events[0]) == Some(path[0]);
      TakesTransition(m, events[0], ctx);
      PathAfterStep(m.nodes, m.current, events, path);
      FollowsDeclaredPath(m.(current := path[0]), events[1..], path[1..], ctx);
      RunUnfolds(m, events, ctx);
      assert path == [path[0]] + path[1..];
    }
  }

  /** An event with a transition moves the machine to its destination and
      changes nothing else. */
  lemma TakesTransition<S(!new), E(!new), F, X>(m: Machine<S, E, F>, e: E, ctx: Option<X>)
    requires Valid(m) && Lookup(m.nodes, m.current, e).Some?
    ensures Apply(m, e, ctx).Ok?
    ensures Apply(m, e, ctx).value.machine == m.(current := Lookup(m.nodes, m.current, e).value)
  {
  }

  /** A path declared from `start` is, past its first step, a path declared
      from its first state. */
  lemma PathAfterStep<S(!new), E(!new), F>(g: Registry<S, E, F>, start: S, events: seq<E>, path: seq<S>)
    requires |path| == |events| && events != []
    requires forall i :: 0 <= i < |events| ==> Lookup(g, From(start, path, i), events[i]) == Some(path[i])
    ensures forall i :: 0 <= i < |events[1..]| ==>
      Lookup(g, From(path[0], path[1..], i), events[1..][i]) == Some(path[1..][i])
  {
  }

  /** A rejected event stops the sequence where it stands: the machine is
      untouched, no listener has run, and the error names the state and event. */
  lemma RejectedEventChangesNothing<S(!new), E(!new), F, X>(
    m: Machine<S, E, F>, e: E, rest: seq<E>, ctx: Option<X>)
    requires Valid(m) && m.strict && Lookup(m.nodes, m.current, e) == None
    ensures Run(m, [e] + rest, ctx) == Outcome(m, [], [], Some(UnexpectedEventType(GetState(m), e)))
  {
  }

  /** In lenient mode an event with no transition is ignored: the caller
      continues from the same state and no listener runs. */
  lemma IgnoredEventChangesNothing<S(!new), E(!new), F, X>(
    m: Machine<S, E, F>, e: E, rest: seq<E>, ctx: Option<X>)
    requires Valid(m) && !m.strict && Lookup(m.nodes, m.current, e) == None
    ensures var o := Run(m, [e] + rest, ctx);
      o == Run(m, rest, ctx).(visited := [GetState(m)] + Run(m, rest, ctx).visited)
  {
    assert ([e] + rest)[1..] == rest;
  }

  /** A self-loop keeps the state but still runs the state's exit listeners
      followed by its enter listeners, so it is silent only when the state
      has no listeners at all. */
  lemma SelfLoopRunsExitThenEnter<S(!new), E(!new), F, X>(m: Machine<S, E, F>, e: E, ctx: Option<X>)
    requires Valid(m) && Lookup(m.nodes, m.current, e) == Some(m.current)
    ensures Apply(m, e, ctx).Ok?
    ensures Apply(m, e, ctx).value.machine == m
    ensures ExitThenEnter(Apply(m, e, ctx).value.trace,
                          m.nodes[m.current].exitListeners, m.nodes[m.current].enterListeners, ctx)
    ensures Apply(m, e, ctx).value.trace == [] <==>
      m.nodes[m.current].exitListeners == [] && m.nodes[m.current].enterListeners == []
  {
  }
}

=== FILE: nodes.dfy ===
/** One state's position in the transition graph (Node.java): the state it
    stands for, its outgoing transitions keyed by event type, and its ordered
    enter and exit listener lists. */
module Nodes {
  import opened Results

  /** Which listener list a callback belongs to. */
  datatype Phase = Enter | Exit

  /** One listener invocation: the listener, the list it was run from, and the
      context it received (`None` when the caller supplied no context). */
  datatype Call<F, X> = Call(phase: Phase, listener: F, ctx: Option<X>)

  /** Destinations are state values: the builder keeps exactly one node per
      state, so a state value identifies the destination node. */
  datatype Node<S, E(==), F> = Node(
    state: S,
    neighbors: map<E, S>,
    enterListeners: seq<F>,
    exitListeners: seq<F>)

  /** The listener list a phase selects. */
  function Listeners<S(!new), E(!new), F>(n: Node<S, E, F>, phase: Phase): seq<F>
  {
    match phase
    case Enter => n.enterListeners
    case Exit => n.exitListeners
  }

  /** A fresh node: no transitions and no listeners yet. */
  function NewNode<S(!new), E(!new), F>(s: S): (n: Node<S, E, F>)
    ensures n.state == s
    ensures forall e :: GetNeighbor(n, e) == None
    ensures Listeners(n, Enter) == [] && Listeners(n, Exit) == []
  {
    Node(s, map[], [], [])
  }

  /** The destination registered for `e`, or `None` (Java's `null`). */
  function GetNeighbor<S(!new), E(!new), F>(n: Node<S, E, F>, e: E): (d: Option<S>)
    ensures d.Some? <==> e in n.neighbors
    ensures d.Some? ==> d.value == n.neighbors[e]
  {
    if e in n.neighbors then Some(n.neighbors[e]) else None
  }

  /** Records `d` as the destination for `e`; an earlier destination for `e`
      is silently replaced. */
  function AddNeighbor<S(!new), E(!new), F>(n: Node<S, E, F>, e: E, d: S): (r: Node<S, E, F>)
    ensures r.state == n.state
    ensures GetNeighbor(r, e) == Some(d)
    ensures forall x :: x != e ==> GetNeighbor(r, x) == GetNeighbor(n, x)
    ensures r.neighbors.Keys == n.neighbors.Keys + {e}
    ensures forall p :: Listeners(r, p) == Listeners(n, p)
  {
    n.(neighbors := n.neighbors[e := d])
  }

  /** Appends `f` to the end of the list selected by `phase`, through the
      node's own `addOnEnterListener` / `addOnExitListener`. */
  function AddListener<S(!new), E(!new), F>(n: Node<S, E, F>, phase: Phase, f: F): (r: Node<S, E, F>)
    ensures r.state == n.state && r.neighbors == n.neighbors
    ensures |Listeners(r, phase)| == |Listeners(n, phase)| + 1
    ensures Listeners(r, phase)[..|Listeners(n, phase)|] == Listeners(n, phase)
    ensures Listeners(r, phase)[|Listeners(n, phase)|] == f
    ensures forall p :: p != phase ==> Listeners(r, p) == Listeners(n, p)
  {
    match phase
    case Enter => AddOnEnterListener(n, f)
    case Exit => AddOnExitListener(n, f)
  }

  /** `addOnEnterListener`: appends to the enter list only. */
  function AddOnEnterListener<S(!new), E(!new), F>(n: Node<S, E, F>, f: F): (r: Node<S, E, F>)
    ensures r.state == n.state && r.neighbors == n.neighbors
    ensures r.enterListeners == n.enterListeners + [f]
    ensures r.exitListeners == n.exitListeners
  {
    n.(enterListeners := n.enterListeners + [f])
  }

  /** `addOnExitListener`: appends to the exit list only. */
  function AddOnExitListener<S(!new), E(!new), F>(n: Node<S, E, F>, f: F): (r: Node<S, E, F>)
    ensures r.state == n.state && r.neighbors == n.neighbors
    ensures r.exitListeners == n.exitListeners + [f]
    ensures r.enterListeners == n.enterListeners
  {
    n.(exitListeners := n.exitListeners + [f])
  }

  /** The calls made by running every listener of `ls`, in list order, each
      with the same context. This is the functional form of `OnEnter` and
      `OnExit` below; the machine's `Apply` uses it directly, and those
      methods are proved to produce exactly these calls. */
  function Fire<F, X>(phase: Phase, ls: seq<F>, ctx: Option<X>): (t: seq<Call<F, X>>)
    ensures |t| == |ls|
    ensures forall i :: 0 <= i < |t| ==> t[i] == Call(phase, ls[i], ctx)
  {
    if ls == [] then []
    else Fire(phase, ls[..|ls| - 1], ctx) + [Call(phase, ls[|ls| - 1], ctx)]
  }

  /** `onEnter(context)`: runs each enter listener once, in registration order. */
  method OnEnter<S(!new), E(!new), F, X>(n: Node<S, E, F>, ctx: Option<X>) returns (t: seq<Call<F, X>>)
    ensures |t| == |n.enterListeners|
    ensures forall i :: 0 <= i < |t| ==> t[i] == Call(Enter, n.enterListeners[i], ctx)
    ensures t == Fire(Enter, n.enterListeners, ctx)
  {
    t := RunAll(Enter, n.enterListeners, ctx);
  }

  /** `onExit(context)`: runs each exit listener once, in registration order. */
  method OnExit<S(!new), E(!new), F, X>(n: Node<S, E, F>, ctx: Option<X>) returns (t: seq<Call<F, X>>)
    ensures |t| == |n.exitListeners|
    ensures forall i :: 0 <= i < |t| ==> t[i] == Call(Exit, n.exitListeners[i], ctx)
    ensures t == Fire(Exit, n.exitListeners, ctx)
  {
    t := RunAll(Exit, n.exitListeners, ctx);
  }

  /** The `forEach` loop over one listener list. */
  method RunAll<F, X>(phase: Phase, ls: seq<F>, ctx: Option<X>) returns (t: seq<Call<F, X>>)
    ensures t == Fire(phase, ls, ctx)
  {
    t := [];
    var i := 0;
    while i < |ls|
      invariant 0 <= i <= |ls|
      invariant |t| == i
      invariant forall j :: 0 <= j < i ==> t[j] == Call(phase, ls[j], ctx)
    {
      t := t + [Call(phase, ls[i], ctx)];
      i := i + 1;
    }
  }
}

=== FILE: results.dfy ===
/** Optional values and error-or-value results, standing in for Java's nullable
    references and thrown exceptions. */
module Results {

  /** `None` plays the part of a Java `null`. */
  datatype Option<+T> = None | Some(value: T)

  /** `Err` plays the part of an exception thrown to the caller. */
  datatype Result<+T, +R> = Ok(value: T) | Err(error: R)
}

=== FILE: scenarios.dfy ===
/** The four tests of StateMachineTest.java, on the job-lifecycle enumeration
    used there, plus the lenient counterpart of the last test, which the
    repository does not test. Listeners are named by what the test's lambdas
    record. */
module Scenarios {
  import opened Results
  import opened Nodes
  import opened Graph
  import opened StateMachine
  import B = StateMachineBuilder

  datatype State = INIT | RUNNING | PAUSED | COMPLETED
  datatype EventType = RUN | PAUSE | END
  datatype Flag = MarkEntered | MarkExited

  /** The caller supplies no context. */
  type NoCtx = ()

  function Lifecycle(): (b: B.Builder<State, EventType, Flag>)
    ensures B.Valid(b)
  {
    var b := B.New(INIT);
    var b := B.AddTransition(b, INIT, RUN, RUNNING);
    var b := B.AddTransition(b, RUNNING, PAUSE, PAUSED);
    var b := B.AddTransition(b, RUNNING, END, COMPLETED);
    B.AddTransition(b, PAUSED, RUN, RUNNING)
  }

  /** The four declared transitions of the lifecycle, read back. */
  lemma LifecycleTransitions()
    ensures Lookup(Lifecycle().nodes, INIT, RUN) == Some(RUNNING)
    ensures Lookup(Lifecycle().nodes, RUNNING, PAUSE) == Some(PAUSED)
    ensures Lookup(Lifecycle().nodes, RUNNING, END) == Some(COMPLETED)
    ensures Lookup(Lifecycle().nodes, PAUSED, RUN) == Some(RUNNING)
  {
    var b1 := B.AddTransition(B.New(INIT), INIT, RUN, RUNNING);
    var b2 := B.AddTransition(b1, RUNNING, PAUSE, PAUSED);
    var b3 := B.AddTransition(b2, RUNNING, END, COMPLETED);
    var b4 := B.AddTransition(b3, PAUSED, RUN, RUNNING);
    assert Lifecycle() == b4;
    assert Lookup(b4.nodes, INIT, RUN) == Some(RUNNING) by {
      assert Lookup(b2.nodes, INIT, RUN) == Some(RUNNING);
    }
    assert Lookup(b4.nodes, RUNNING, PAUSE) == Some(PAUSED) by {
      assert Lookup(b3.nodes, RUNNING, PAUSE) == Some(PAUSED);
    }
  }

  /** Any machine in INIT with the lifecycle's transitions is driven by RUN,
      PAUSE, RUN, END through RUNNING, PAUSED, RUNNING, COMPLETED. */
  lemma LifecycleRunFrom(m: Machine<State, EventType, Flag>)
    requires Valid(m) && m.current == INIT
    requires Lookup(m.nodes, INIT, RUN) == Some(RUNNING)
    requires Lookup(m.nodes, RUNNING, PAUSE) == Some(PAUSED)
    requires Lookup(m.nodes, RUNNING, END) == Some(COMPLETED)
    requires Lookup(m.nodes, PAUSED, RUN) == Some(RUNNING)
    ensures Run<State, EventType, Flag, NoCtx>(m, [RUN, PAUSE, RUN, END], None).error == None
    ensures Run<State, EventType, Flag, NoCtx>(m, [RUN, PAUSE, RUN, END], None).visited
         == [RUNNING, PAUSED, RUNNING, COMPLETED]
  {
    var events := [RUN, PAUSE, RUN, END];
    var path := [RUNNING, PAUSED, RUNNING, COMPLETED];
    assert From(m.current, path, 0) == INIT;
    assert From(m.current, path, 1) == RUNNING;
    assert From(m.current, path, 2) == PAUSED;
    assert From(m.current, path, 3) == RUNNING;
    FollowsDeclaredPath<State, EventType, Flag, NoCtx>(m, events, path, None);
  }

  /** testStateMachineTransitions: the built machine starts in INIT and RUN,
      PAUSE, RUN, END drive it through RUNNING, PAUSED, RUNNING, COMPLETED. */
  lemma LifecycleRun()
    ensures GetState(B.Build(Lifecycle())) == INIT
    ensures Run<State, EventType, Flag, NoCtx>(B.Build(Lifecycle()), [RUN, PAUSE, RUN, END], None).error == None
    ensures Run<State, EventType, Flag, NoCtx>(B.Build(Lifecycle()), [RUN, PAUSE, RUN, END], None).visited
         == [RUNNING, PAUSED, RUNNING, COMPLETED]
  {
    LifecycleTransitions();
    LifecycleRunFrom(B.Build(Lifecycle()));
  }

  /** testOnStateEnterListener: a listener on entering RUNNING runs when RUN
      moves the machine out of INIT. */
  lemma EnterListenerRuns()
    ensures var m := B.Build(B.OnEnter(B.AddTransition(B.New(INIT), INIT, RUN, RUNNING), RUNNING, MarkEntered));
      var r := ApplyNoContext<State, EventType, Flag, NoCtx>(m, RUN);
      r.Ok? && GetState(r.value.machine) == RUNNING && r.value.trace == [Call(Enter, MarkEntered, None)]
  {
  }

  /** testOnStateExitListener: a listener on leaving INIT runs on the same step. */
  lemma ExitListenerRuns()
    ensures var m := B.Build(B.OnExit(B.AddTransition(B.New(INIT), INIT, RUN, RUNNING), INIT, MarkExited));
      var r := ApplyNoContext<State, EventType, Flag, NoCtx>(m, RUN);
      r.Ok? && GetState(r.value.machine) == RUNNING && r.value.trace == [Call(Exit, MarkExited, None)]
  {
  }

  /** testUnexpectedEventTypeExceptionIsThrown: with no transitions the
      default strict machine rejects RUN in INIT. */
  lemma UnexpectedEventRejected()
    ensures ApplyNoContext<State, EventType, Flag, NoCtx>(B.Build(B.New(INIT)), RUN)
         == Err(UnexpectedEventType(INIT, RUN))
  {
  }

  /** The same machine built lenient ignores RUN and stays in INIT. */
  lemma UnexpectedEventIgnoredWhenLenient()
    ensures var m := B.Build(B.StrictTransitions(B.New<State, EventType, Flag>(INIT), false));
      ApplyNoContext<State, EventType, Flag, NoCtx>(m, RUN) == Ok(Step(m, []))
  {
  }
}
